=== FILE: README.md ===
# MCTS statistics bookkeeping in Dafny

This project models the search engine of a generic Monte Carlo Tree Search
(class `MCTS` in `MCTS_refactored.py`). The engine is generic over a board
state. It keeps three maps keyed by state:

- `Q`: the total reward of each state.
- `N`: the visit count of each state.
- `children`: the successor set of each expanded state. A state is expanded
  exactly when it is a key of this map.

One training iteration (`do_rollout`) has four steps:

1. Select a descent path from a root.
2. Expand the path's last state.
3. Simulate a random game from it.
4. Backpropagate the reward along the path. The reward flips to `1 - r` at
   each level up, because each level belongs to the other player.

`choose` recommends the best-scoring child of a state.

The model is functional. The searcher is an immutable record `Stats.Mcts<S>`,
and every operation returns the updated record. `N` and `Q` are zero-default
accessors, as Python's `defaultdict(int)` is. The abstract `Node` class
becomes the record `Node.Game<S>` of pure functions:

- `successors` is `find_children`.
- `isTerminal` is `is_terminal`.
- `height` is a depth measure that bounds descents. The source has no such
  function; see "Left out".

Modules:

- `Wrappers` (wrappers.dfy): `Result`, for the error cases of `choose`.
- `Node` (node.dfy): the state capabilities, and `Acyclic`, which says every
  move lowers `height`.
- `Stats` (stats.dfy): the searcher record, `N`/`Q`, `_score` as `ScoreOf`
  over `Score = NegInf | Mean(value)`, and the invariants.
  - `VisitedWhenExpanded`: every expanded state has `N > 0`.
  - `Bounded`: `0 <= Q <= N` holds for every state.
  - `Consistent`: each recorded child set is the successor set of its key.
  - `Grows`: the old expanded entries are kept unchanged.
- `Rewards` (rewards.dfy): `Flip`, the reward seen a given number of levels
  above where it was obtained. `Credit` is an independent, front-to-back
  definition of what backpropagation adds to each state.
- `Engine` (engine.dfy): `_expand`, `_backpropagate`, `max`, `_uct_select`,
  `_select`, `choose`, `do_rollout`, and a run of rollouts from a fresh
  searcher.

The safety invariant is that every expanded state has been visited.
`UctSelect` requires `UctReady`: the node was visited and every child was
visited. `Select` calls it only after proving this from
`VisitedWhenExpanded`. Inside `Uct` the two counts are passed as `Pos`
(positive) values in place of the logarithm and the square root, and the
average is a real division. So "no `log(0)`, no division by zero" is checked
at that call. `Rollouts` proves the invariant holds after any sequence of
rollouts that starts from an empty searcher, provided every simulation
returns a reward (see "Left out").

## Model

| member | source | states |
|---|---|---|
| Stats.Init | MCTS_refactored.py:21-25 | A fresh searcher has no expanded state, and `N` and `Q` read zero for every state; it satisfies the visited and bounded invariants and keeps the exploration weight |
| Stats.ScoreOf | MCTS_refactored.py:82-86 | The score is minus infinity exactly when `N[n] == 0`; otherwise it is the mean, the value that multiplied by `N[n]` gives `Q[n]` |
| Stats.VisitedOutranksUnvisited | MCTS_refactored.py:82-86 | A visited state's score is strictly above an unvisited one's, so `max` by score never prefers an unvisited state |
| Stats.MeanInUnitInterval | MCTS_refactored.py:82-86 | When every total reward lies in `[0, N]`, as rewards in [0, 1] keep it, a visited state's score lies in [0, 1] |
| Engine.Expand | MCTS_refactored.py:59-62 | Afterwards the node is expanded; an existing entry is never overwritten (an expanded node leaves the searcher unchanged); a new entry is the node's successor set; no other key is added or changed; `N`, `Q`, `Consistent` and `Bounded` are preserved; `VisitedWhenExpanded` is not (a new key has `N == 0`) and is restored only by the backpropagation that follows in `do_rollout` |
| Engine.ExpandIdempotent | MCTS_refactored.py:59-62 | Expanding the same node twice equals expanding it once |
| Engine.Backpropagate | MCTS_refactored.py:74-79 | `N[s]` grows by the number of occurrences of `s` in the path; `Q[s]` grows by `Credit`, the reward flipped once per level between each occurrence and the leaf; `children` is unchanged; rewards in [0, 1] keep `0 <= Q <= N` |
| Engine.Visit | MCTS_refactored.py:77-78 | One loop step: the state gets one more visit and the current reward, and every other state keeps its counts |
| Engine.BackpropagateOffPath | MCTS_refactored.py:76-78 | A state not on the path keeps its `N` and `Q` |
| Rewards.Flip | MCTS_refactored.py:79 | The reward seen `k` levels up flips once per level: flipping twice restores it, one more level flips it once more, and it stays in [0, 1] |
| Rewards.CreditSnocAt | MCTS_refactored.py:76-79 | Walking a path from its end equals walking its prefix with the flipped reward after crediting the last element the reward itself |
| Rewards.CreditOfHead | MCTS_refactored.py:76-79 | A path head that occurs once on the path receives the reward flipped `len(path) - 1` times |
| Rewards.CreditOffPath | MCTS_refactored.py:76-78 | A state off the path is credited nothing |
| Engine.ArgMax | MCTS_refactored.py:97 | `max` with a key over a non-empty set returns a member whose key is at least every member's key |
| Engine.Uct | MCTS_refactored.py:93-95 | The UCT value of a visited child of a visited parent: with exploration weight 0 it is the child's mean reward (pure exploitation); with a non-negative weight and bonus it is never below the child's score |
| Engine.UctSelect | MCTS_refactored.py:89-97 | Given a visited node whose children are all visited, it returns a child whose UCT value is at least every child's; the UCT value is computed only on positive counts |
| Engine.UctReachedOnlyWhenReady | MCTS_refactored.py:51-57 | Where the descent falls through to `_uct_select` (expanded, with children, none unexpanded) and expanded states are visited, the node and all its children have `N >= 1` |
| Engine.Select | MCTS_refactored.py:46-57 | The path is non-empty and starts at the node; each element is a child of the one before; every element but the last is expanded with children; the last one is not expanded or has no children |
| Engine.DescentHeights | MCTS_refactored.py:53-57 | Along any descent through recorded children the depth measure strictly decreases |
| Engine.SelectionIsSimple | MCTS_refactored.py:46-57 | A selected path never repeats a state, and the start occurs only at its head |
| Engine.RolloutVisits | MCTS_refactored.py:74-78 | Backpropagating along a path with no repeats adds exactly one visit to each path state and none elsewhere |
| Engine.RolloutRewards | MCTS_refactored.py:74-79 | Backpropagating along such a path credits the element at index `i` the reward flipped once per level below it, so the root gets it flipped once per edge; off-path rewards are unchanged |
| Rewards.CreditAt | MCTS_refactored.py:76-79 | On a path with no repeated state, the element at index `i` is credited the reward flipped `len(path) - 1 - i` times |
| Engine.Choose | MCTS_refactored.py:27-35 | Fails with `TerminalNode` exactly on a terminal node; an unexpanded node defers to `find_random_child`; an expanded node with no children fails as `max` of an empty set does; otherwise it returns a child whose score is at least every child's, and a visited one whenever some child was visited |
| Engine.DoRollout | MCTS_refactored.py:37-43 | The path has the selection shape; old entries of `children` are kept and only the path's last state may be added; the root is expanded afterwards (with its successors if it was new); each path state gets exactly one visit; every state's reward grows by its `Credit`: the path element at index `i` gets the reward flipped `len(path) - 1 - i` times, so the root gets it flipped once per edge, and off-path rewards are unchanged; `Consistent` and `VisitedWhenExpanded` are preserved, and `Bounded` is preserved when the reward lies in [0, 1] |
| Engine.Rollouts | MCTS_refactored.py:37-43 | After any sequence of rollouts from an empty searcher, every expanded state has been visited, child sets are the successor sets, every root used is expanded, and rewards in [0, 1] keep `0 <= Q <= N` |

## Left out

- `_simulate` (MCTS_refactored.py:65-72) is not modelled. It depends on `find_random_child` randomness. As written, it also calls `reward()` on non-terminal states, and it leaves `reward` unbound when the leaf is already terminal. The rollout reward is a parameter of `Engine.DoRollout` instead.
- Engine.UctSelect: the UCT formula uses floating-point `math.log` and `math.sqrt`. They are replaced by a caller-supplied `confidence` on positive counts, so the contract says only which child wins under that value, not the numeric formula.
- Engine.Select: it requires a depth measure (`Node.Acyclic`) and `Stats.Consistent`, so that the descent terminates. On a cyclic state graph the Python loop in `_select` may never return; that case is not modelled.
- Engine.ArgMax: ties are broken by an arbitrary choice, not by set iteration order, so the model does not say which maximal element `max` returns.
- Engine.Choose: the `find_random_child` fallback is returned as the marker `RandomChild` rather than a state, because it is random and belongs to the concrete state class.
- `defaultdict` insertion on read of `self.N[n]` and `self.Q[n]` is not modelled. Reading through the zero-default accessors `N` and `Q` gives the same values. `self.children` is only ever indexed on keys already present: line 35 runs after the check on line 32, line 51 short-circuits on `not in`, and lines 53 and 97 run only after line 51 passes. So its default never fires, and the model indexes `children` only on present keys.
- Concrete `Node` implementations and the `reward()` capability are foreign domain code; only `find_children` and `is_terminal` are modelled.
- Explicit `__eq__`/hash on states is the type's equality in Dafny.
- Rewards, `Q` and `_score` are modelled as exact reals. `Q` starts as a `defaultdict(int)` (MCTS_refactored.py:22). While every reward is an integer, such as the win and loss values 1 and 0 named at line 124, `Q` and the flipped reward `1 - reward` stay exact, unbounded Python ints. They become floats once a reward such as 0.5 appears, and `_score` is always a float because `/` is true division (line 86). IEEE doubles do not keep every fact the contracts use. For example, `1 - (1 - 0.1)` is not `0.1`, so `Rewards.Flip`'s "flipping twice restores the reward" holds for such rewards only in real arithmetic. The rounded division in `_score` can also make two means tie as floats when they differ as reals, and `max` then keeps whichever it met first. Sums of halves are exact below 2^52; only the division rounds.
- Engine.DoRollout: the model assumes every simulation returns a reward, and it treats one rollout as all-or-nothing. The source is not atomic. `_expand(leaf)` (line 41) runs before `_simulate(leaf)` (line 42). When the leaf is already terminal, `_simulate` never assigns `reward`, so line 72 raises `UnboundLocalError` and `_backpropagate` (line 43) never runs. The leaf then stays expanded with `N` unchanged, which is 0 if it was new. If a caller catches that error and keeps rolling out, "every expanded state has been visited" fails, and `_uct_select` on the leaf's parent divides by zero (line 95). `Engine.Rollouts` inherits the same assumption.
- Stats.Init: `MCTS.__init__`'s default `exploration_weight=1` (line 21) is not modelled as a default argument; the weight is always passed explicitly.

=== FILE: engine.dfy ===
/**
 The search engine of class `MCTS`: expansion, backpropagation, the selection
 descent, the UCT choice among children, the recommendation `choose`, and one
 training iteration `do_rollout`. Every operation takes the searcher's
 statistics as a value and returns the updated value.
 */
module Engine {
  import opened Wrappers
  import opened Node
  import opened Stats
  import opened Rewards

  /** A positive visit count: the only counts the UCT formula may take a
      logarithm of or divide by. */
  type Pos = n: nat | n > 0 witness 1

  // ---------------------------------------------------------------- expand

  /** `_expand`: record the successors of `node` unless it is already expanded. */
  function Expand<S(!new)>(g: Game<S>, m: Mcts<S>, node: S): (m': Mcts<S>)
    ensures node in m'.children
    ensures node in m.children ==> m' == m
    ensures node !in m.children ==> m'.children[node] == g.successors(node)
    ensures m'.children.Keys == m.children.Keys + {node}
    ensures Grows(m, m')
    ensures m'.q == m.q && m'.n == m.n && m'.explorationWeight == m.explorationWeight
    ensures Consistent(g, m) ==> Consistent(g, m')
    ensures forall s :: N(m', s) == N(m, s) && Q(m', s) == Q(m, s)
    ensures Bounded(m) ==> Bounded(m')
  {
    if node in m.children then m
    else m.(children := m.children[node := g.successors(node)])
  }

  /** Expanding twice is expanding once. */
  lemma ExpandIdempotent<S(!new)>(g: Game<S>, m: Mcts<S>, node: S)
    ensures Expand(g, Expand(g, m, node), node) == Expand(g, m, node)
  {
  }

  // --------------------------------------------------------- backpropagate

  /** `_backpropagate`: walk `path` from its last element to its first; each
      element gets one more visit and the current reward, and the reward
      flips to `1 - reward` before moving one level up. */
  function Backpropagate<S(!new)>(m: Mcts<S>, path: seq<S>, reward: real): (m': Mcts<S>)
    ensures m'.children == m.children && m'.explorationWeight == m.explorationWeight
    ensures forall s :: N(m', s) == N(m, s) + multiset(path)[s]
    ensures forall s :: Q(m', s) == Q(m, s) + Credit(path, s, reward)
    ensures 0.0 <= reward <= 1.0 && Bounded(m) ==> Bounded(m')
    decreases |path|
  {
    if path == [] then m
    else
      var leaf := path[|path| - 1];
      var above := path[..|path| - 1];
      assert path == above + [leaf];
      CreditSnoc(above, leaf, reward);
      Backpropagate(Visit(m, leaf, reward), above, 1.0 - reward)
  }

  /** One step of `_backpropagate`: `s` gets one more visit and `reward` more
      total reward; every other state is untouched. */
  function Visit<S(!new)>(m: Mcts<S>, s: S, reward: real): (m': Mcts<S>)
    ensures m'.children == m.children && m'.explorationWeight == m.explorationWeight
    ensures N(m', s) == N(m, s) + 1 && Q(m', s) == Q(m, s) + reward
    ensures forall t :: t != s ==> N(m', t) == N(m, t) && Q(m', t) == Q(m, t)
    ensures 0.0 <= reward <= 1.0 && Bounded(m) ==> Bounded(m')
  {
    m.(n := m.n[s := N(m, s) + 1], q := m.q[s := Q(m, s) + reward])
  }

  /** A state off the path keeps its visit count and total reward. */
  lemma BackpropagateOffPath<S(!new)>(m: Mcts<S>, path: seq<S>, reward: real, s: S)
    requires s !in path
    ensures N(Backpropagate(m, path, reward), s) == N(m, s)
    ensures Q(Backpropagate(m, path, reward), s) == Q(m, s)
  {
    CreditOffPath(path, s, reward);
  }

  // ------------------------------------------------------------------ max

  /** `max(xs, key=key)`: some element of the non-empty `xs` whose key is at
      least the key of every element. Like `max`, it replaces the current
      best only by a strictly greater key. */
  method ArgMax<S>(xs: set<S>, key: S --> Score) returns (best: S)
    requires xs != {}
    requires forall x :: x in xs ==> key.requires(x)
    ensures best in xs
    ensures forall x :: x in xs ==> AtMost(key(x), key(best))
  {
    best :| best in xs;
    var rest := xs - {best};
    while rest != {}
      invariant rest <= xs && best in xs
      invariant forall x :: x in xs && x !in rest ==> AtMost(key(x), key(best))
      decreases rest
    {
      var x :| x in rest;
      if !AtMost(key(x), key(best)) {
        best := x;
      }
      rest := rest - {x};
    }
  }

  // ------------------------------------------------------------------ UCT

  /** The state in which the UCT formula is defined at `node`: it is expanded
      with children, it was visited (so its log is defined), and every child
      was visited (so nothing is divided by zero). */
  ghost predicate UctReady<S>(m: Mcts<S>, node: S) {
    && Interior(m, node)
    && N(m, node) > 0
    && forall c :: c in m.children[node] ==> N(m, c) > 0
  }

  /** The UCT value of child `c` of `parent`: its score plus the exploration
      weight times `confidence(N[parent], N[c])`, where `confidence` stands
      for the floating-point `sqrt(log(N[parent]) / N[c])`. */
  function Uct<S>(m: Mcts<S>, confidence: (Pos, Pos) -> real, parent: S, c: S): (r: real)
    requires N(m, parent) > 0 && N(m, c) > 0
    ensures m.explorationWeight == 0.0 ==> r * (N(m, c) as real) == Q(m, c)
    ensures m.explorationWeight >= 0.0 && confidence(N(m, parent), N(m, c)) >= 0.0 ==> r >= ScoreOf(m, c).value
  {
    ScoreOf(m, c).value + m.explorationWeight * confidence(N(m, parent), N(m, c))
  }

  /** `_uct_select`: a child of `node` with maximal UCT value. */
  method UctSelect<S>(m: Mcts<S>, confidence: (Pos, Pos) -> real, node: S) returns (c: S)
    requires UctReady(m, node)
    ensures c in m.children[node]
    ensures forall d :: d in m.children[node] ==> Uct(m, confidence, node, d) <= Uct(m, confidence, node, c)
  {
    var kids := m.children[node];
    c := ArgMax(kids, d requires d in kids => Mean(Uct(m, confidence, node, d)));
  }

  // --------------------------------------------------------------- select

  /** Each element of `path` is an expanded state and the next one is among its children. */
  ghost predicate Descends<S>(m: Mcts<S>, path: seq<S>) {
    forall i :: 0 <= i < |path| - 1 ==> path[i] in m.children && path[i + 1] in m.children[path[i]]
  }

  /** The shape of the path `_select` returns from `node`: it starts at
      `node`, descends through expanded states with children, and ends at a
      state that is not expanded or has no children. */
  ghost predicate IsSelection<S>(m: Mcts<S>, node: S, path: seq<S>) {
    && |path| > 0
    && path[0] == node
    && Descends(m, path)
    && (forall i :: 0 <= i < |path| - 1 ==> Interior(m, path[i]))
    && !Interior(m, path[|path| - 1])
  }

  /** `_select`: descend from `node` until reaching a state that is not
      expanded or has no children, or a state with an unexpanded child, which
      is then appended. Every other step follows `_uct_select`, which is only
      ever called where the UCT formula is defined. */
  method Select<S(!new)>(g: Game<S>, m: Mcts<S>, confidence: (Pos, Pos) -> real, node: S) returns (path: seq<S>)
    requires Acyclic(g) && Consistent(g, m) && VisitedWhenExpanded(m)
    ensures IsSelection(m, node, path)
  {
    path := [];
    var current := node;
    while true
      invariant (path + [current])[0] == node
      invariant Descends(m, path + [current])
      invariant forall i :: 0 <= i < |path| ==> Interior(m, path[i])
      decreases g.height(current)
    {
      path := path + [current];
      if current !in m.children || m.children[current] == {} {
        return;
      }
      var unexplored := m.children[current] - m.children.Keys;
      if unexplored != {} {
        var c :| c in unexplored;
        path := path + [c];
        return;
      }
      UctReachedOnlyWhenReady(m, current);
      current := UctSelect(m, confidence, current);
    }
  }

  /** Where `_select` falls through to `_uct_select` (expanded, with children,
      none of them unexpanded), the UCT formula is defined, provided every
      expanded state has been visited. */
  lemma UctReachedOnlyWhenReady<S(!new)>(m: Mcts<S>, node: S)
    requires VisitedWhenExpanded(m)
    requires Interior(m, node) && m.children[node] - m.children.Keys == {}
    ensures UctReady(m, node)
  {
    forall c | c in m.children[node]
      ensures N(m, c) > 0
    {
      assert c !in m.children[node] - m.children.Keys;
    }
  }

  /** Heights strictly decrease along a descent, so no state occurs twice on it. */
  lemma {:induction false} DescentHeights<S(!new)>(g: Game<S>, m: Mcts<S>, path: seq<S>)
    requires Acyclic(g) && Consistent(g, m) && Descends(m, path)
    ensures forall i, j :: 0 <= i < j < |path| ==> g.height(path[j]) < g.height(path[i])
    decreases |path|
  {
    if |path| > 1 {
      var above := path[..|path| - 1];
      assert Descends(m, above) by {
        forall i | 0 <= i < |above| - 1
          ensures above[i] in m.children && above[i + 1] in m.children[above[i]]
        {
          assert above[i] == path[i] && above[i + 1] == path[i + 1];
        }
      }
      DescentHeights(g, m, above);
      var last := |path| - 1;
      assert g.height(path[last]) < g.height(path[last - 1]);
      forall i, j | 0 <= i < j < |path|
        ensures g.height(path[j]) < g.height(path[i])
      {
        if j < last {
          assert path[i] == above[i] && path[j] == above[j];
        } else if i < last - 1 {
          assert g.height(above[last - 1]) < g.height(above[i]);
        }
      }
    }
  }

  // --------------------------------------------------------------- choose

  /** Why `choose` gives no recommendation. */
  datatype ChooseError =
    | TerminalNode  // the `RuntimeError` for a terminal node
    | NoChildren    // `max` of an empty child set raises `ValueError`

  /** What `choose` recommends. */
  datatype Pick<S> =
    | RandomChild     // not expanded: the answer is `node.find_random_child()`
    | Child(best: S)  // the best-scoring recorded child

  /** `choose`: the child of `node` with the highest score. */
  method Choose<S>(g: Game<S>, m: Mcts<S>, node: S) returns (r: Result<Pick<S>, ChooseError>)
    ensures r == Failure(TerminalNode) <==> g.isTerminal(node)
    ensures !g.isTerminal(node) && node !in m.children ==> r == Success(RandomChild)
    ensures !g.isTerminal(node) && node in m.children && m.children[node] == {} ==> r == Failure(NoChildren)
    ensures !g.isTerminal(node) && Interior(m, node) ==>
              && r.Success? && r.value.Child?
              && r.value.best in m.children[node]
              && (forall c :: c in m.children[node] ==> AtMost(ScoreOf(m, c), ScoreOf(m, r.value.best)))
              && ((exists c :: c in m.children[node] && N(m, c) > 0) ==> N(m, r.value.best) > 0)
  {
    if g.isTerminal(node) {
      return Failure(TerminalNode);
    }
    if node !in m.children {
      return Success(RandomChild);
    }
    var kids := m.children[node];
    if kids == {} {
      return Failure(NoChildren);
    }
    var best := ArgMax(kids, c => ScoreOf(m, c));
    return Success(Child(best));
  }

  // ------------------------------------------------------------ do_rollout

  /** `do_rollout`: select a path from `node`, expand its last element, and
      backpropagate `reward`, the value `_simulate` returns for that element.
      The path is returned as well, so the contract can speak about it. */
  method DoRollout<S(!new)>(g: Game<S>, confidence: (Pos, Pos) -> real, m: Mcts<S>, node: S, reward: real)
    returns (m': Mcts<S>, path: seq<S>)
    requires Acyclic(g) && Consistent(g, m) && VisitedWhenExpanded(m)
    ensures IsSelection(m, node, path)
    ensures Consistent(g, m') && VisitedWhenExpanded(m')
    ensures Grows(m, m') && m'.children.Keys == m.children.Keys + {path[|path| - 1]}
    ensures node in m'.children
    ensures node !in m.children ==> path == [node] && m'.children == m.children[node := g.successors(node)]
    ensures forall s :: N(m', s) == N(m, s) + (if s in path then 1 else 0)
    ensures forall s :: Q(m', s) == Q(m, s) + Credit(path, s, reward)
    ensures forall i :: 0 <= i < |path| ==> Q(m', path[i]) == Q(m, path[i]) + Flip(reward, |path| - 1 - i)
    ensures Q(m', node) == Q(m, node) + Flip(reward, |path| - 1)
    ensures forall s :: s !in path ==> Q(m', s) == Q(m, s)
    ensures 0.0 <= reward <= 1.0 && Bounded(m) ==> Bounded(m')
    ensures m'.explorationWeight == m.explorationWeight
  {
    path := Select(g, m, confidence, node);
    var expanded := Expand(g, m, path[|path| - 1]);
    m' := Backpropagate(expanded, path, reward);
    SelectionIsSimple(g, m, node, path);
    RolloutVisits(expanded, path, reward);
    RolloutRewards(expanded, path, reward);
  }

  /** A selected path visits no state twice, and it contains the start only at its head. */
  lemma SelectionIsSimple<S(!new)>(g: Game<S>, m: Mcts<S>, node: S, path: seq<S>)
    requires Acyclic(g) && Consistent(g, m) && IsSelection(m, node, path)
    ensures forall i, j :: 0 <= i < j < |path| ==> path[i] != path[j]
    ensures node !in path[1..]
  {
    DescentHeights(g, m, path);
  }

  /** Backpropagating along a path with no repeated state visits each of its states exactly once. */
  lemma RolloutVisits<S(!new)>(m: Mcts<S>, path: seq<S>, reward: real)
    requires forall i, j :: 0 <= i < j < |path| ==> path[i] != path[j]
    ensures forall s :: N(Backpropagate(m, path, reward), s) == N(m, s) + (if s in path then 1 else 0)
  {
    forall s ensures multiset(path)[s] == if s in path then 1 else 0 {
      DistinctCount(path, s);
    }
  }

  /** Backpropagating along a path with no repeated state credits the element
      at index `i` the reward flipped once per level between it and the leaf
      (so the head gets it flipped once per edge), and leaves states off the
      path alone. */
  lemma RolloutRewards<S(!new)>(m: Mcts<S>, path: seq<S>, reward: real)
    requires |path| > 0 && forall i, j :: 0 <= i < j < |path| ==> path[i] != path[j]
    ensures forall i :: 0 <= i < |path| ==> Q(Backpropagate(m, path, reward), path[i]) == Q(m, path[i]) + Flip(reward, |path| - 1 - i)
    ensures forall s :: s !in path ==> Q(Backpropagate(m, path, reward), s) == Q(m, s)
  {
    forall i | 0 <= i < |path|
      ensures Credit(path, path[i], reward) == Flip(reward, |path| - 1 - i)
    {
      CreditAt(path, i, reward);
    }
    forall s | s !in path ensures Credit(path, s, reward) == 0.0 {
      CreditOffPath(path, s, reward);
    }
  }

  /** In a path with no repeated state, every state occurs once or not at all. */
  lemma {:induction false} DistinctCount<S>(path: seq<S>, s: S)
    requires forall i, j :: 0 <= i < j < |path| ==> path[i] != path[j]
    ensures multiset(path)[s] == if s in path then 1 else 0
    decreases |path|
  {
    if path != [] {
      assert path == [path[0]] + path[1..];
      assert path[0] !in path[1..];
      DistinctCount(path[1..], s);
    }
  }

  /** A training run: `do_rollout` once for every `(root, reward)` pair, in
      order, starting from a fresh searcher. Afterwards every expanded state
      has been visited, so the UCT formula was always defined. */
  method Rollouts<S(!new)>(g: Game<S>, confidence: (Pos, Pos) -> real, explorationWeight: real, samples: seq<(S, real)>)
    returns (m: Mcts<S>)
    requires Acyclic(g)
    ensures Consistent(g, m) && VisitedWhenExpanded(m)
    ensures (forall i :: 0 <= i < |samples| ==> 0.0 <= samples[i].1 <= 1.0) ==> Bounded(m)
    ensures forall i :: 0 <= i < |samples| ==> samples[i].0 in m.children
    ensures m.explorationWeight == explorationWeight
  {
    m := Init(explorationWeight);
    for k := 0 to |samples|
      invariant Consistent(g, m) && VisitedWhenExpanded(m)
      invariant (forall i :: 0 <= i < k ==> 0.0 <= samples[i].1 <= 1.0) ==> Bounded(m)
      invariant forall i :: 0 <= i < k ==> samples[i].0 in m.children
      invariant m.explorationWeight == explorationWeight
    {
      var m', _ := DoRollout(g, confidence, m, samples[k].0, samples[k].1);
      m := m';
    }
  }
}

=== FILE: node.dfy ===
/**
 The board-state abstraction the search engine is generic over (the abstract
 class `Node`). A state is any value of a type `S` with equality; its
 capabilities are pure functions collected in a `Game` record.
 */
module Node {

  /** The capabilities of a state that the statistics bookkeeping uses.
      - `successors` is `find_children`: all states reachable in one move.
      - `isTerminal` is `is_terminal`.
      - `height` is not part of the abstract class: it is a depth measure
        (for instance, the number of moves left on a finite board) that bounds
        every descent through the successor relation, see `Acyclic`. */
  datatype Game<!S> = Game(successors: S -> set<S>, isTerminal: S -> bool, height: S -> nat)

  /** Every move strictly lowers the height, so the successor relation has no cycles. */
  ghost predicate Acyclic<S(!new)>(g: Game<S>) {
    forall s, c :: c in g.successors(s) ==> g.height(c) < g.height(s)
  }
}

=== FILE: rewards.dfy ===
/**
 The reward convention of backpropagation: the searcher alternates players
 level by level, so a reward `r` for the player at one node is `1 - r` for the
 player one level up.
 */
module Rewards {

  /** The reward as seen `plies` levels above the node it was obtained at:
      unchanged after an even number of levels, `1 - r` after an odd number. */
  function Flip(r: real, plies: nat): (r': real)
    ensures plies >= 2 ==> r' == Flip(r, plies - 2)
    ensures plies >= 1 ==> r' == 1.0 - Flip(r, plies - 1)
    ensures 0.0 <= r <= 1.0 ==> 0.0 <= r' <= 1.0
  {
    if plies % 2 == 0 then r else 1.0 - r
  }

  /** The total reward that backpropagating `r` from the last element of
      `path` credits to `s`: the element at index `i` sits `|path| - 1 - i`
      levels above the leaf. */
  function Credit<S(==)>(path: seq<S>, s: S, r: real): real
    decreases |path|
  {
    if path == [] then 0.0
    else (if path[0] == s then Flip(r, |path| - 1) else 0.0) + Credit(path[1..], s, r)
  }

  /** Appending a new leaf `x` gives it `r` and flips what every earlier element receives. */
  lemma {:induction false} CreditSnocAt<S>(p: seq<S>, x: S, s: S, r: real)
    ensures Credit(p + [x], s, r) == Credit(p, s, 1.0 - r) + (if x == s then r else 0.0)
    decreases |p|
  {
    if p == [] {
      assert [x][1..] == [];
    } else {
      assert (p + [x])[1..] == p[1..] + [x];
      CreditSnocAt(p[1..], x, s, r);
      assert Flip(r, |p|) == Flip(1.0 - r, |p| - 1);
    }
  }

  /** `CreditSnocAt` for every state at once. */
  lemma CreditSnoc<S>(p: seq<S>, x: S, r: real)
    ensures forall s :: Credit(p + [x], s, r) == Credit(p, s, 1.0 - r) + (if x == s then r else 0.0)
  {
    forall s
      ensures Credit(p + [x], s, r) == Credit(p, s, 1.0 - r) + (if x == s then r else 0.0)
    {
      CreditSnocAt(p, x, s, r);
    }
  }

  /** A state off the path is credited nothing. */
  lemma {:induction false} CreditOffPath<S>(path: seq<S>, s: S, r: real)
    requires s !in path
    ensures Credit(path, s, r) == 0.0
    decreases |path|
  {
    if path != [] {
      assert path[0] != s;
      CreditOffPath(path[1..], s, r);
    }
  }

  /** When the first element occurs nowhere else on the path, it is credited
      `r` flipped once per level between it and the leaf. */
  lemma CreditOfHead<S>(path: seq<S>, r: real)
    requires |path| > 0 && path[0] !in path[1..]
    ensures Credit(path, path[0], r) == Flip(r, |path| - 1)
  {
    CreditOffPath(path[1..], path[0], r);
  }

  /** On a path with no repeated state, the element at index `i` is credited
      `r` flipped once per level between it and the leaf. */
  lemma {:induction false} CreditAt<S>(path: seq<S>, i: nat, r: real)
    requires forall a, b :: 0 <= a < b < |path| ==> path[a] != path[b]
    requires i < |path|
    ensures Credit(path, path[i], r) == Flip(r, |path| - 1 - i)
    decreases i
  {
    if i == 0 {
      CreditOfHead(path, r);
    } else {
      assert path[0] != path[i];
      assert path[1..][i - 1] == path[i];
      CreditAt(path[1..], i - 1, r);
    }
  }
}

=== FILE: stats.dfy ===
/**
 The statistics an MCTS searcher keeps (class `MCTS`): total reward `Q`, visit
 count `N`, and the `children` map whose keys are exactly the expanded states.
 */
module Stats {
  import opened Node

  /** The searcher's state. `q` and `n` are read through `Q` and `N`, which
      give 0 for an absent key, as a `defaultdict(int)` does. */
  datatype Mcts<S> = Mcts(
    q: map<S, real>,
    n: map<S, nat>,
    children: map<S, set<S>>,
    explorationWeight: real)

  /** Total reward of `s`, zero when `s` was never visited. */
  function Q<S>(m: Mcts<S>, s: S): real {
    if s in m.q then m.q[s] else 0.0
  }

  /** Visit count of `s`, zero when `s` was never visited. */
  function N<S>(m: Mcts<S>, s: S): nat {
    if s in m.n then m.n[s] else 0
  }

  /** A fresh searcher: nothing expanded, every count and reward zero. Python's
      `MCTS.__init__` defaults `exploration_weight` to 1; here the weight is
      always passed explicitly. */
  function Init<S(!new)>(explorationWeight: real): (m: Mcts<S>)
    ensures m.children == map[]
    ensures forall s :: N(m, s) == 0 && Q(m, s) == 0.0
    ensures m.explorationWeight == explorationWeight
    ensures VisitedWhenExpanded(m) && Bounded(m)
  {
    Mcts(map[], map[], map[], explorationWeight)
  }

  /** `s` has been expanded and has at least one child: selection descends through it. */
  predicate Interior<S>(m: Mcts<S>, s: S) {
    s in m.children && m.children[s] != {}
  }

  /** Every expanded state has been visited at least once. */
  ghost predicate VisitedWhenExpanded<S(!new)>(m: Mcts<S>) {
    forall s :: s in m.children ==> N(m, s) > 0
  }

  /** Every total reward lies between 0 and the visit count, as it does when
      every reward is in [0, 1]. In particular an unvisited state has reward 0. */
  ghost predicate Bounded<S(!new)>(m: Mcts<S>) {
    forall s :: 0.0 <= Q(m, s) <= N(m, s) as real
  }

  /** Every recorded child set is the game's successor set of its key. */
  ghost predicate Consistent<S(!new)>(g: Game<S>, m: Mcts<S>) {
    forall s :: s in m.children ==> m.children[s] == g.successors(s)
  }

  /** `m'` keeps every expanded state of `m` with the same child set. */
  ghost predicate Grows<S(!new)>(m: Mcts<S>, m': Mcts<S>) {
    forall s :: s in m.children ==> s in m'.children && m'.children[s] == m.children[s]
  }

  /** The value `_score` returns: minus infinity, or an average reward. */
  datatype Score = NegInf | Mean(value: real)

  /** The order `max` compares scores by: minus infinity is below every mean. */
  predicate AtMost(a: Score, b: Score) {
    a.NegInf? || (b.Mean? && a.value <= b.value)
  }

  /** `_score`: the average reward of `s`, or minus infinity when it was never visited. */
  function ScoreOf<S>(m: Mcts<S>, s: S): (r: Score)
    ensures r.NegInf? <==> N(m, s) == 0
    ensures r.Mean? ==> r.value * (N(m, s) as real) == Q(m, s)
  {
    if N(m, s) == 0 then NegInf else Mean(Q(m, s) / N(m, s) as real)
  }

  /** A visited state always outranks an unvisited one, so the average-reward
      criterion never prefers a state with no visits. */
  lemma VisitedOutranksUnvisited<S>(m: Mcts<S>, a: S, b: S)
    requires N(m, a) > 0 && N(m, b) == 0
    ensures AtMost(ScoreOf(m, b), ScoreOf(m, a))
    ensures !AtMost(ScoreOf(m, a), ScoreOf(m, b))
  {
  }

  /** Under `Bounded`, the score of a visited state is an average in [0, 1]. */
  lemma MeanInUnitInterval<S(!new)>(m: Mcts<S>, s: S)
    requires Bounded(m) && N(m, s) > 0
    ensures ScoreOf(m, s).Mean?
    ensures 0.0 <= ScoreOf(m, s).value <= 1.0
  {
  }
}

=== FILE: wrappers.dfy ===
/** The result type for the engine's error paths. */
module Wrappers {

  /** Either a value or the error Python's `MCTS.choose` raises instead of returning one. */
  datatype Result<+T, +E> = Success(value: T) | Failure(error: E)
}
